=== FILE: README.md ===
# Lease-based global lock: a Dafny model

This project models the distributed lock of `toolkit-jedis`: `GlobalLockImpl` and
the argument validator `AbstractAssertUtils` it relies on. Threads coordinate
through a shared Redis-like store. To take a lock, a thread creates a record
under a namespaced key with `SET NX PX`. The record holds a fresh lock version
(token) and a time-to-live. The thread keeps its token in a thread-local slot.
Extending and releasing compare that slot with the stored value before they
write.

Modules, one per concern:

- `Java`: `long` bounds, `null`, the exceptions that can escape, and Java's
  truncating division.
- `AssertUtils`: `isTrue` and the three `notEmpty` checks, as functions that
  either pass or raise `IllegalArgumentException(message)`.
- `TimeUnits`: `TimeUnit.toMillis`, the only work done by the overloads that
  take a duration.
- `LockKeys`: the `vlightv:global:lock:` namespace and its inverse.
- `LockStore`: the single-key store commands (`SET NX PX`, `SET PX`, `GET`,
  `EXISTS`, `DEL`). The stored records carry the TTL they were written with.
- `GlobalLock`: the lock state and one step function per operation, or per
  phase of an operation. The state holds the store, the thread-local registry
  (one token per thread, whatever the key) and a serial counter for fresh
  tokens. Store faults are a parameter. A borrow or any command may raise the
  client's exception, and a command whose reply is lost may still have
  reached the server.
- `Protocol`: many threads interleaving calls, phases of suspended calls, and
  record expiry. Two granularities are modelled. `WholeOps` runs `delayLock`
  and `unLock` as one step each. `RoundTrips` separates their GET from their
  SET/DEL, as in `GlobalLockImpl`. In both, `lock` spins over several events.

Details of the Java code that the model reproduces:

- `lock` borrows one connection before the spin loop and sends every attempt
  over it (`GlobalLockImpl.java:83-99`). Its attempts do not each borrow their
  own connection.
- `lockNoWait` clears the thread's slot whenever it returns false. This
  includes a failed connection borrow, which happens before any token is
  recorded (`GlobalLockImpl.java:130`, `150`). A call that raises, because of
  an empty key or a null unit, leaves the slot as it was.
- `delayLock` for a thread with no remembered token still sends its GET.
  Java evaluates the argument `jedis.get(lockKey)` before it dereferences the
  null token. So a failing GET ends in the caught store error, and a
  successful GET ends in a `NullPointerException` that escapes to the caller
  (`GlobalLockImpl.java:176-179`).
- `unLock` clears the slot whenever its `DEL` returns, even when the `DEL`
  removed nothing because the record vanished after the GET. In that case it
  returns false (`GlobalLockImpl.java:223-225`).
- `getLockVersion` strips `_` from the UUID text, but UUID text contains
  hyphens and no underscores, so nothing is removed
  (`GlobalLockImpl.java:252`). Tokens are unique either way, and the model
  treats them as opaque.
- The store answers `SET … PX n` with an error when `n` is not positive, or
  when `n` added to the store's clock does not fit in a `long`. The client
  raises it, and the operations catch it like any other store error
  (`GlobalLockImpl.java:100`, `144`, `184`). So `lockNoWait` with a lease
  shorter than a millisecond, or with a duration whose conversion saturates to
  `Long.MAX_VALUE`, returns false, and `delayLock` with such a lease writes
  nothing. The state therefore carries the store's clock, which a `Tick`
  event advances.
- The overloads that take a duration call `timeUnit.toMillis(time)` before
  anything else. A null unit therefore raises a `NullPointerException` that
  escapes, even when the key is valid (`GlobalLockImpl.java:69-71`, `115-117`,
  `161-163`).

The token oracle is `NewToken(s, ctx) = Token(s.nextSerial, ctx)`. Every step
that hands out a token advances the counter. `Protocol.RunInv` proves that
every token in the store, the registry or a suspended call was handed out
before. So a new token differs from every token already present.

## Model

| member | source | states |
|---|---|---|
| `AssertUtils.IsTrue` | src/main/java/cn/vimor/toolkit/jedis/util/AbstractAssertUtils.java:37-41 | passes exactly when the expression holds; otherwise raises IllegalArgument with the given message |
| `AssertUtils.NotEmptyString` | src/main/java/cn/vimor/toolkit/jedis/util/AbstractAssertUtils.java:56-60 | passes exactly when the string is non-null and contains some character; otherwise raises IllegalArgument with the message |
| `AssertUtils.NotEmptyCollection` | src/main/java/cn/vimor/toolkit/jedis/util/AbstractAssertUtils.java:73-77 | passes exactly when the collection is non-null and holds some element; otherwise raises IllegalArgument with the message |
| `AssertUtils.NotEmptyMap` | src/main/java/cn/vimor/toolkit/jedis/util/AbstractAssertUtils.java:90-94 | passes exactly when the map is non-null and has some key; otherwise raises IllegalArgument with the message |
| `AssertUtils.NotEmptyChecksAreIsTrue` | src/main/java/cn/vimor/toolkit/jedis/util/AbstractAssertUtils.java:37-94 | each notEmpty check equals isTrue applied to "non-null and non-empty", message included |
| `AssertUtils.BlankStringAccepted` | src/main/java/cn/vimor/toolkit/jedis/util/AbstractAssertUtils.java:56-60 | a non-empty string of blanks passes the string check |
| `TimeUnits.ToMillis` | src/main/java/cn/vimor/toolkit/jedis/lock/GlobalLockImpl.java:69-71 | finer units give the whole milliseconds, rounded toward zero; coarser units give the exact product, or the long bound of the same sign on overflow |
| `TimeUnits.ToMillisMonotone` | src/main/java/cn/vimor/toolkit/jedis/lock/GlobalLockImpl.java:69-71 | a longer duration never converts to fewer milliseconds |
| `TimeUnits.ToMillisRoundTrip` | src/main/java/cn/vimor/toolkit/jedis/lock/GlobalLockImpl.java:69-71 | without overflow, a coarse-unit conversion is a multiple of the unit and divides back to the original count |
| `LockKeys.LockKey` | src/main/java/cn/vimor/toolkit/jedis/lock/GlobalLockImpl.java:242-244 | the storage key is the prefix `vlightv:global:lock:` followed by the resource key, nothing more |
| `LockKeys.ResourceKey` | src/main/java/cn/vimor/toolkit/jedis/lock/GlobalLockImpl.java:242-244 | inverse of LockKey: defined exactly on prefixed keys and yields the key that maps back to them |
| `LockKeys.LockKeyRoundTrip` | src/main/java/cn/vimor/toolkit/jedis/lock/GlobalLockImpl.java:242-244 | the resource key is recovered from its storage key |
| `LockKeys.LockKeyInjective` | src/main/java/cn/vimor/toolkit/jedis/lock/GlobalLockImpl.java:242-244 | distinct resource keys have distinct storage keys |
| `GlobalLock.LeaseMillis` | src/main/java/cn/vimor/toolkit/jedis/lock/GlobalLockImpl.java:63-71 | the overloads without a duration pass the configured lease time; the others pass their duration in milliseconds; a null unit raises NullPointer and nothing else does |
| `GlobalLock.LockEnter` | src/main/java/cn/vimor/toolkit/jedis/lock/GlobalLockImpl.java:79-89 | empty key raises with state unchanged; a failed borrow returns with nothing recorded; otherwise a fresh unused token is recorded for the thread before any store command, and the call starts spinning |
| `GlobalLock.LockAttempt` | src/main/java/cn/vimor/toolkit/jedis/lock/GlobalLockImpl.java:90-105 | the call returns exactly when the key was free, the store raised, or the store refused the lease time (not positive, or its expiry instant past the long range at the store's clock); a refused lease time changes nothing; on success the key maps to the thread's token; while the key is held nothing changes; the registry is never cleared, not even on error |
| `GlobalLock.LockNoWait` | src/main/java/cn/vimor/toolkit/jedis/lock/GlobalLockImpl.java:126-152 | true exactly when the key was free, the store accepted the lease time and the store answered; a refused lease time writes nothing; then key maps to the fresh token and the thread remembers it; on false the thread's slot is removed; existing records, the holder's included, are never disturbed; the only record a call can leave is its own fresh token, and a false result leaves one only when a lost SET reply had reached the store; a failed borrow writes nothing |
| `GlobalLock.TryLock` | src/main/java/cn/vimor/toolkit/jedis/lock/GlobalLockImpl.java:193-208 | true exactly when no record exists for the key and the store answered; writes nothing; empty key raises |
| `GlobalLock.DelayLockRead` | src/main/java/cn/vimor/toolkit/jedis/lock/GlobalLockImpl.java:171-179 | proceeds to the write exactly when the thread's token equals the stored value; NullPointer exactly when the thread has no token and the GET answered; any other outcome for a valid key, a token mismatch included, is a normal return |
| `GlobalLock.DelayLockWrite` | src/main/java/cn/vimor/toolkit/jedis/lock/GlobalLockImpl.java:179-183 | writes the remembered token with the new TTL regardless of what the key holds by now, unless the store refuses the TTL, in which case nothing changes; registry untouched |
| `GlobalLock.DelayLock` | src/main/java/cn/vimor/toolkit/jedis/lock/GlobalLockImpl.java:171-190 | never creates, removes or re-tokens a record and never touches the registry; only the caller's own record may change, only its TTL, and only to a TTL the store accepts; the store changes only when the borrow and the GET succeeded; a healthy call by the holder with an accepted TTL refreshes it; NullPointer exactly when the thread has no token and the GET answered, and every other call with a valid key returns normally |
| `GlobalLock.UnLockRead` | src/main/java/cn/vimor/toolkit/jedis/lock/GlobalLockImpl.java:210-221 | proceeds to the delete exactly when the thread has a token equal to the stored value; otherwise false with nothing changed |
| `GlobalLock.UnLockDelete` | src/main/java/cn/vimor/toolkit/jedis/lock/GlobalLockImpl.java:221-233 | deletes whatever the key holds now; true exactly when a record was there; the thread's slot is cleared whenever the DEL returned |
| `GlobalLock.UnLock` | src/main/java/cn/vimor/toolkit/jedis/lock/GlobalLockImpl.java:210-234 | a record goes only if it holds the token the caller remembers and the borrow and the GET succeeded; a false result leaves the store as it was unless a lost DEL reply had reached it; true exactly when the caller's token matched and the store answered, and then the slot is cleared; otherwise the registry is unchanged |
| `Protocol.RunInv` | src/main/java/cn/vimor/toolkit/jedis/lock/GlobalLockImpl.java:251-255 | in every run, every token present was handed out before and carries the thread that made it; serials never decrease |
| `Protocol.OneRememberingThread` | src/main/java/cn/vimor/toolkit/jedis/lock/GlobalLockImpl.java:36 | at most one thread remembers the token a record holds |
| `Protocol.NoTokenSwap` | src/main/java/cn/vimor/toolkit/jedis/lock/GlobalLockImpl.java:171-190 | with whole operations, a record never changes its token while it exists |
| `Protocol.OnlyRememberingThreadReleases` | src/main/java/cn/vimor/toolkit/jedis/lock/GlobalLockImpl.java:210-234 | with whole operations, a record disappears only by expiry or by unLock of that key from the thread remembering its token |
| `Protocol.LeaseUndisturbed` | src/main/java/cn/vimor/toolkit/jedis/lock/GlobalLockImpl.java:79-234 | with whole operations, a run with no expiry of the key and no action of the record's owner leaves the record unchanged |
| `Protocol.HeldKeyRefusesOthers` | src/main/java/cn/vimor/toolkit/jedis/lock/GlobalLockImpl.java:126-152 | after a successful lockNoWait, every lockNoWait and tryLock on that key fails until the holder acts or the record expires |
| `Protocol.TokensNeverReused` | src/main/java/cn/vimor/toolkit/jedis/lock/GlobalLockImpl.java:251-255 | a later acquisition never gets a token that is already in the store or registry |
| `Protocol.SpinnerWaitsThenEnters` | src/main/java/cn/vimor/toolkit/jedis/lock/GlobalLockImpl.java:90-99 | a spinning lock changes nothing while the key is held and takes the key on its next attempt after the record expires, when the store accepts its lease time; with a refused lease time it returns on its next attempt and writes nothing |
| `Protocol.LeaseTimeFollowsConfiguration` | src/main/java/cn/vimor/toolkit/jedis/lock/GlobalLockImpl.java:49-117 | the record's TTL is the configured one, 3000 ms when none is configured, or the given duration in milliseconds; a record is written exactly when that TTL is positive and fits beside the store's clock; a null unit changes nothing |
| `Protocol.NullUnitChangesNothing` | src/main/java/cn/vimor/toolkit/jedis/lock/GlobalLockImpl.java:68-71 | an overload with a null unit raises NullPointer whatever the key, before any check or store command, and the system is unchanged |
| `Protocol.SubMillisecondLeaseFails` | src/main/java/cn/vimor/toolkit/jedis/lock/GlobalLockImpl.java:114-152 | lockNoWait for 500 microseconds converts to 0 ms and then returns false, writes nothing and clears the thread's slot, for every accepted key and every store |
| `Protocol.SaturatedLeaseFails` | src/main/java/cn/vimor/toolkit/jedis/lock/GlobalLockImpl.java:114-152 | lockNoWait for Long.MAX_VALUE days saturates to Long.MAX_VALUE ms, which no store clock past the epoch accepts, so it returns false, writes nothing and clears the thread's slot |
| `Protocol.AcquireFreeKey` | src/main/java/cn/vimor/toolkit/jedis/lock/GlobalLockImpl.java:126-143 | with a configured TTL the store accepts, lockNoWait on a free key stores the fresh token with the configured TTL and records it for the thread, nothing else |
| `Protocol.RoundTripsBackToBack` | src/main/java/cn/vimor/toolkit/jedis/lock/GlobalLockImpl.java:171-234 | the two round trips of delayLock or unLock with nothing in between equal the whole call |
| `Protocol.ExtendBackToBack` | src/main/java/cn/vimor/toolkit/jedis/lock/GlobalLockImpl.java:160-190 | the GET and SET phases of delayLock run back to back equal the whole call, for every duration |
| `Protocol.ReleaseBackToBack` | src/main/java/cn/vimor/toolkit/jedis/lock/GlobalLockImpl.java:210-234 | the GET and DEL phases of unLock run back to back equal the whole call |
| `Protocol.OwnerReadsOwnRecord` | src/main/java/cn/vimor/toolkit/jedis/lock/GlobalLockImpl.java:171-179 | a healthy GET phase of delayLock or unLock by the thread whose token the record holds changes nothing but that thread's next phase: the SET of its token with the configured TTL, or the DEL |
| `Protocol.WriteBackLands` | src/main/java/cn/vimor/toolkit/jedis/lock/GlobalLockImpl.java:179-183 | a healthy SET phase of delayLock with an accepted TTL writes the remembered token over whatever the key holds by now, and the call ends |
| `Protocol.UnLockRaceRemovesNewHolder` | src/main/java/cn/vimor/toolkit/jedis/lock/GlobalLockImpl.java:215-226 | with round trips, an expiry and a new acquisition between GET and DEL let unLock delete another thread's lease |
| `Protocol.DelayLockRaceOverwritesNewHolder` | src/main/java/cn/vimor/toolkit/jedis/lock/GlobalLockImpl.java:176-183 | with round trips, an expiry and a new acquisition between GET and SET let delayLock overwrite another thread's lease with its own token |
| `Protocol.JobScenario` | src/main/java/cn/vimor/toolkit/jedis/lock/GlobalLockImpl.java:79-234 | A locks job-42; B's lockNoWait fails; A's unLock returns true and removes the record; B's lockNoWait then succeeds with a different token |

## Left out

- Connection-pool plumbing is not modelled: `getJedis`, `closeJedis`, the `synchronized` modifier, and a missing pool, which makes `getJedis` return null so that a later command throws `NullPointerException` (`GlobalLockImpl.java:262-284`). A borrow is modelled only as the point where a store exception can happen.
- Logging and the Spring annotations are not modelled, because they have no effect on the lock's state or results.
- Wall-clock expiry is replaced by an explicit `Expire` event that removes a record without notifying anyone. The TTL is only recorded with the record.
- UUID randomness is replaced by a serial counter that never repeats.
- The spin loop of `lock` is unbounded. The model makes no termination or fairness claim: a spinning thread simply stays pending.
- The store's clock only feeds the `PX` check: it is advanced by `Tick` events at will, and it does not drive expiry, which stays the explicit `Expire` event.
- Thread ids are never reused by different threads in the model.
- `GlobalLock.Init`, `Protocol.Next` and `Protocol.Run` are definitions without contracts of their own. `Protocol.LeaseTimeFollowsConfiguration` and the trace lemmas state their properties.
- The typed data-structure façades (`Default*Operations`, `JedisServiceImpl`), their interfaces, the auto-configuration classes, `StringArrayUtil` and `AbstractBashOperation` are not modelled. Each forwards a call to the store client or wires components together, and has no invariant of its own.

=== FILE: assert_utils.dfy ===
/** The argument validator every lock operation calls first: each check
    either passes silently or throws `IllegalArgumentException` carrying the
    caller's message. A Java collection is seen as the multiset of its
    elements; `null` is `Null`. */
module AssertUtils {
  import opened Java

  /** `isTrue`: throws exactly when the expression is false. */
  function IsTrue(expression: bool, message: string): (r: Outcome<()>)
    ensures r.Value? <==> expression
    ensures r.Raised? ==> r.error == IllegalArgument(message)
  {
    if !expression then Raised(IllegalArgument(message)) else Value(())
  }

  /** `notEmpty(String)`: passes exactly when the string is not null and has
      at least one character; any character will do, blanks included. */
  function NotEmptyString(str: Nullable<string>, message: string): (r: Outcome<()>)
    ensures r.Value? <==> str.NonNull? && exists c :: c in str.value
    ensures r.Raised? ==> r.error == IllegalArgument(message)
  {
    if str.Null? || |str.value| == 0 then Raised(IllegalArgument(message))
    else assert str.value[0] in str.value; Value(())
  }

  /** `notEmpty(Collection)`: passes exactly when the collection is not null
      and holds some element. */
  function NotEmptyCollection<T>(coll: Nullable<multiset<T>>, message: string): (r: Outcome<()>)
    ensures r.Value? <==> coll.NonNull? && exists x :: x in coll.value
    ensures r.Raised? ==> r.error == IllegalArgument(message)
  {
    if coll.Null? || |coll.value| == 0 then Raised(IllegalArgument(message)) else Value(())
  }

  /** `notEmpty(Map)`: passes exactly when the map is not null and has some
      entry. */
  function NotEmptyMap<K, V>(m: Nullable<map<K, V>>, message: string): (r: Outcome<()>)
    ensures r.Value? <==> m.NonNull? && exists k :: k in m.value
    ensures r.Raised? ==> r.error == IllegalArgument(message)
  {
    if m.Null? || |m.value| == 0 then Raised(IllegalArgument(message)) else Value(())
  }

  /** Each emptiness check is `isTrue` applied to "not null and not empty". */
  lemma NotEmptyChecksAreIsTrue<T, K, V>(str: Nullable<string>, coll: Nullable<multiset<T>>,
                                         m: Nullable<map<K, V>>, message: string)
    ensures NotEmptyString(str, message) == IsTrue(str.NonNull? && str.value != [], message)
    ensures NotEmptyCollection(coll, message) == IsTrue(coll.NonNull? && coll.value != multiset{}, message)
    ensures NotEmptyMap(m, message) == IsTrue(m.NonNull? && m.value != map[], message)
  {
  }

  /** A string made only of blanks is accepted: the check looks at length,
      not content. */
  lemma BlankStringAccepted(str: string, message: string)
    requires |str| > 0
    requires forall i :: 0 <= i < |str| ==> str[i] == ' '
    ensures NotEmptyString(NonNull(str), message) == Value(())
  {
  }
}

=== FILE: global_lock.dfy ===
/** The lease-based lock: each public operation as a step from the lock's
    state to a new state and the call's outcome.

    Store faults are a parameter of each step. A connection borrow or any
    command may raise the store client's exception; the operations catch it,
    so it shows only in their results. A command whose reply was lost may
    still have taken effect on the server (`reachedServer`).

    `lock`, `delayLock` and `unLock` talk to the store more than once, and
    other threads may act in between, so they are split into phases: a phase
    either finishes the call or leaves a `Resume` that says what the
    suspended call will do next. */
module GlobalLock {
  import opened Java
  import opened AssertUtils
  import opened TimeUnits
  import opened LockKeys
  import opened LockStore

  /** An execution context: the calling thread, by its id. */
  type Ctx = nat

  /** A lock version. `GlobalLockImpl` builds it from a random UUID followed by
      the generating thread's id; the UUID is modelled by a serial number
      that is never handed out twice. Its text is never empty. */
  datatype Token = Token(serial: nat, thread: Ctx)

  /** `store` holds the lock records; `registry` is the thread-local slot,
      ONE token per thread whatever the key; `nextSerial` is the first serial
      not yet handed out; `clock` is the store's time, in milliseconds since
      the epoch. */
  datatype State = State(store: Store<Token>, registry: map<Ctx, Token>, nextSerial: nat, clock: nat)

  /** Which store interaction of one call raises, if any. Commands are
      numbered from 0 in the order the call sends them. */
  datatype Fault = Healthy | BorrowFails | CommandFails(index: nat, reachedServer: bool)

  predicate FailsAt(f: Fault, i: nat)
  {
    f.CommandFails? && f.index == i
  }

  /** What a suspended call does when it next runs: another `SET NX`
      attempt, the `SET` of a lease extension, or the `DEL` of a release. */
  datatype Resume =
    | Spin(lockKey: string, token: Token, millis: Long)
    | WriteBack(lockKey: string, token: Token, millis: Long)
    | Delete(lockKey: string)

  datatype Progress<T> = Done(outcome: Outcome<T>) | Pending(resume: Resume)

  /** The state after one phase of a call, and how far the call got. */
  datatype Step<T> = Step(next: State, progress: Progress<T>)

  /** The state after a whole call, and its outcome. */
  datatype Reply<T> = Reply(next: State, outcome: Outcome<T>)

  const DefaultLockMillis: Long := 3000
  const KeyMessage: string := "'key' must not be null and empty"

  /** `init`: the configured lease time when one is set, else 3000 ms. */
  function Init(lockEx: Nullable<Long>): Long
  {
    if lockEx.NonNull? then lockEx.value else DefaultLockMillis
  }

  /** The overloads without a duration use the configured lease time; the
      others convert theirs to milliseconds. The unit is a Java reference and
      may be null. */
  datatype Duration = DefaultTtl | For(time: Long, unit: Nullable<TimeUnit>)

  /** The lease time an overload hands to its private method. The overloads
      with a duration call `timeUnit.toMillis(time)` first, so a null unit
      raises `NullPointerException` before the key is even checked, and
      nothing catches it. */
  function LeaseMillis(defaultMillis: Long, d: Duration): (r: Outcome<Long>)
    ensures r.Raised? <==> d.For? && d.unit.Null?
    ensures r.Raised? ==> r.error == NullPointer
    ensures d.DefaultTtl? ==> r == Value(defaultMillis)
    ensures d.For? && d.unit.NonNull? ==> r == Value(ToMillis(d.time, d.unit.value))
  {
    match d
    case DefaultTtl => Value(defaultMillis)
    case For(time, unit) =>
      if unit.Null? then Raised(NullPointer) else Value(ToMillis(time, unit.value))
  }

  /** The store refuses a `SET … PX` whose time is not positive, or whose
      expiry instant, the time added to the store's clock, does not fit in a
      `long`: the client raises its error, whatever the key holds, and
      nothing is written. */
  predicate PxRefused(millis: Long, clock: nat)
  {
    millis <= 0 || millis > MaxLong - clock
  }

  /** Every operation starts with `notEmpty(key, message)`. */
  predicate KeyAccepted(key: Nullable<string>)
  {
    NotEmptyString(key, KeyMessage).Value?
  }

  /** The fresh-token oracle: a new UUID, tagged with the calling thread. */
  function NewToken(s: State, ctx: Ctx): Token
  {
    Token(s.nextSerial, ctx)
  }

  /** Every token in the state was handed out before, and each registry slot
      holds a token its own thread generated. */
  ghost predicate Wf(s: State)
  {
    && (forall k | k in s.store :: s.store[k].value.serial < s.nextSerial)
    && (forall c | c in s.registry :: s.registry[c].serial < s.nextSerial && s.registry[c].thread == c)
  }

  /** No record and no registry slot holds t. */
  ghost predicate Unused(s: State, t: Token)
  {
    && (forall k | k in s.store :: s.store[k].value != t)
    && (forall c | c in s.registry :: s.registry[c] != t)
  }

  // ---------------------------------------------------------------------
  // lock: validate, borrow a connection, remember a new token, then spin
  // ---------------------------------------------------------------------

  /** Entry of the blocking `lock`, up to its first attempt. The token is
      recorded for the thread before anything is sent to the store. */
  function LockEnter(s: State, ctx: Ctx, key: Nullable<string>, millis: Long, fault: Fault): (r: Step<()>)
    ensures !KeyAccepted(key) ==> r == Step(s, Done(Raised(IllegalArgument(KeyMessage))))
    ensures KeyAccepted(key) && fault.BorrowFails? ==> r == Step(s, Done(Value(())))
    ensures KeyAccepted(key) && !fault.BorrowFails? ==>
              && r.next.store == s.store
              && r.next.registry == s.registry[ctx := NewToken(s, ctx)]
              && r.progress == Pending(Spin(LockKey(key.value), NewToken(s, ctx), millis))
    ensures Wf(s) && r.progress.Pending? ==> Unused(s, r.progress.resume.token)
    ensures Wf(s) ==> Wf(r.next)
  {
    match NotEmptyString(key, KeyMessage)
    case Raised(e) => Step(s, Done(Raised(e)))
    case Value(_) =>
      if fault.BorrowFails? then Step(s, Done(Value(())))
      else
        var t := NewToken(s, ctx);
        Step(s.(registry := s.registry[ctx := t], nextSerial := s.nextSerial + 1),
             Pending(Spin(LockKey(key.value), t, millis)))
  }

  /** One `SET NX PX` attempt of the spin loop, on the connection borrowed at
      entry. The call returns once the record is created or the store
      raises, a refused lease time included; otherwise it keeps spinning and
      nothing changes. */
  function LockAttempt(s: State, lockKey: string, token: Token, millis: Long, fault: Fault): (r: Step<()>)
    ensures r.progress.Done? <==> lockKey !in s.store || FailsAt(fault, 0) || PxRefused(millis, s.clock)
    ensures r.progress.Done? ==> r.progress.outcome == Value(())
    ensures r.progress.Done? && !FailsAt(fault, 0) && !PxRefused(millis, s.clock) ==>
              r.next.store == s.store[lockKey := Record(token, millis)]
    ensures PxRefused(millis, s.clock) ==> r == Step(s, Done(Value(())))
    ensures r.progress.Pending? ==> r == Step(s, Pending(Spin(lockKey, token, millis)))
    ensures lockKey in s.store ==> r.next.store == s.store
    ensures r.next.store == s.store || r.next.store == s.store[lockKey := Record(token, millis)]
    ensures r.next.registry == s.registry && r.next.nextSerial == s.nextSerial
    ensures Wf(s) && token.serial < s.nextSerial ==> Wf(r.next)
  {
    var (wrote, created) := SetIfAbsent(s.store, lockKey, Record(token, millis));
    if PxRefused(millis, s.clock) then Step(s, Done(Value(())))
    else if FailsAt(fault, 0) then
      Step(s.(store := if fault.reachedServer then wrote else s.store), Done(Value(())))
    else if created then
      Step(s.(store := wrote), Done(Value(())))
    else
      Step(s, Pending(Spin(lockKey, token, millis)))
  }

  // ---------------------------------------------------------------------
  // lockNoWait: the same entry and exactly one attempt
  // ---------------------------------------------------------------------

  /** `lockNoWait`: one attempt. On any failure after a valid key, including
      a store error or a refused lease time, the thread's slot is cleared. */
  function LockNoWait(s: State, ctx: Ctx, key: Nullable<string>, millis: Long, fault: Fault): (r: Reply<bool>)
    ensures !KeyAccepted(key) ==> r == Reply(s, Raised(IllegalArgument(KeyMessage)))
    ensures KeyAccepted(key) ==> r.outcome.Value?
    ensures r.outcome == Value(true) <==>
              && KeyAccepted(key) && !fault.BorrowFails? && !FailsAt(fault, 0) && !PxRefused(millis, s.clock)
              && LockKey(key.value) !in s.store
    ensures r.outcome == Value(true) ==>
              && r.next.store == s.store[LockKey(key.value) := Record(NewToken(s, ctx), millis)]
              && r.next.registry == s.registry[ctx := NewToken(s, ctx)]
    ensures r.outcome == Value(false) ==> r.next.registry == s.registry - {ctx}
    ensures PxRefused(millis, s.clock) ==> r.next.store == s.store
    ensures r.next.clock == s.clock
    // the only record a call can leave behind is its own fresh token, and a
    // false result leaves one only when a lost reply had reached the store
    ensures || r.next.store == s.store
            || (KeyAccepted(key) && r.next.store == s.store[LockKey(key.value) := Record(NewToken(s, ctx), millis)])
    ensures fault.BorrowFails? ==> r.next.store == s.store
    ensures r.outcome == Value(false) && !(FailsAt(fault, 0) && fault.reachedServer) ==> r.next.store == s.store
    // an existing record, the holder's included, is never disturbed
    ensures forall k | k in s.store :: k in r.next.store && r.next.store[k] == s.store[k]
    ensures KeyAccepted(key) ==> r.next.store.Keys <= s.store.Keys + {LockKey(key.value)}
    ensures Wf(s) ==> Wf(r.next)
  {
    var e := LockEnter(s, ctx, key, millis, fault);
    match e.progress
    case Done(o) =>
      if o.Raised? then Reply(e.next, Raised(o.error))
      else Reply(e.next.(registry := e.next.registry - {ctx}), Value(false))
    case Pending(spin) =>
      var a := LockAttempt(e.next, spin.lockKey, spin.token, spin.millis, fault);
      if a.progress.Done? && !FailsAt(fault, 0) && !PxRefused(millis, s.clock) then Reply(a.next, Value(true))
      else Reply(a.next.(registry := a.next.registry - {ctx}), Value(false))
  }

  // ---------------------------------------------------------------------
  // tryLock
  // ---------------------------------------------------------------------

  /** `tryLock`: whether no record exists for the key right now. It writes
      nothing, so it returns no new state. A store error reads as `false`. */
  function TryLock(s: State, key: Nullable<string>, fault: Fault): (r: Outcome<bool>)
    ensures !KeyAccepted(key) ==> r == Raised(IllegalArgument(KeyMessage))
    ensures KeyAccepted(key) ==> r.Value?
    ensures r == Value(true) <==>
              KeyAccepted(key) && !fault.BorrowFails? && !FailsAt(fault, 0) && LockKey(key.value) !in s.store
  {
    match NotEmptyString(key, KeyMessage)
    case Raised(e) => Raised(e)
    case Value(_) =>
      if fault.BorrowFails? || FailsAt(fault, 0) then Value(false)
      else Value(!Exists(s.store, LockKey(key.value)))
  }

  // ---------------------------------------------------------------------
  // delayLock: GET, compare with the thread's token, SET with a new TTL
  // ---------------------------------------------------------------------

  /** First round trip of `delayLock`. The argument `jedis.get(lockKey)` is
      evaluated before the null token is dereferenced, so a thread with no
      token gets the GET's own store error if there is one, and a
      `NullPointerException` otherwise. */
  function DelayLockRead(s: State, ctx: Ctx, key: Nullable<string>, millis: Long, fault: Fault): (r: Step<()>)
    ensures r.next == s
    ensures !KeyAccepted(key) ==> r.progress == Done(Raised(IllegalArgument(KeyMessage)))
    ensures r.progress == Done(Raised(NullPointer)) <==>
              KeyAccepted(key) && !fault.BorrowFails? && !FailsAt(fault, 0) && ctx !in s.registry
    ensures r.progress.Pending? <==>
              && KeyAccepted(key) && !fault.BorrowFails? && !FailsAt(fault, 0)
              && ctx in s.registry && Get(s.store, LockKey(key.value)) == NonNull(s.registry[ctx])
    ensures r.progress.Pending? ==> r.progress.resume == WriteBack(LockKey(key.value), s.registry[ctx], millis)
    // a token that does not match is a normal return, not an error
    ensures KeyAccepted(key) && r.progress.Done? && r.progress.outcome != Raised(NullPointer) ==>
              r.progress.outcome == Value(())
  {
    match NotEmptyString(key, KeyMessage)
    case Raised(e) => Step(s, Done(Raised(e)))
    case Value(_) =>
      var lockKey := LockKey(key.value);
      if fault.BorrowFails? || FailsAt(fault, 0) then Step(s, Done(Value(())))
      else if ctx !in s.registry then Step(s, Done(Raised(NullPointer)))
      else if Get(s.store, lockKey) == NonNull(s.registry[ctx]) then
        Step(s, Pending(WriteBack(lockKey, s.registry[ctx], millis)))
      else Step(s, Done(Value(())))
  }

  /** Second round trip of `delayLock`: a plain `SET PX` of the remembered
      token, which does not look at what the key holds by now. A refused
      lease time writes nothing. */
  function DelayLockWrite(s: State, lockKey: string, token: Token, millis: Long, fault: Fault): (r: Step<()>)
    ensures r.progress == Done(Value(()))
    ensures r.next.registry == s.registry && r.next.nextSerial == s.nextSerial
    ensures !FailsAt(fault, 1) && !PxRefused(millis, s.clock) ==> r.next.store == s.store[lockKey := Record(token, millis)]
    ensures PxRefused(millis, s.clock) ==> r.next == s
    ensures FailsAt(fault, 1) ==>
              r.next.store == s.store || r.next.store == s.store[lockKey := Record(token, millis)]
    ensures Wf(s) && token.serial < s.nextSerial ==> Wf(r.next)
  {
    var written := Put(s.store, lockKey, Record(token, millis));
    if PxRefused(millis, s.clock) || (FailsAt(fault, 1) && !fault.reachedServer) then Step(s, Done(Value(())))
    else Step(s.(store := written), Done(Value(())))
  }

  /** `delayLock` with both round trips back to back. */
  function DelayLock(s: State, ctx: Ctx, key: Nullable<string>, millis: Long, fault: Fault): (r: Reply<()>)
    ensures !KeyAccepted(key) ==> r == Reply(s, Raised(IllegalArgument(KeyMessage)))
    ensures r.outcome.Raised? ==> r.next == s
    ensures KeyAccepted(key) && r.outcome != Raised(NullPointer) ==> r.outcome == Value(())
    ensures r.outcome == Raised(NullPointer) <==>
              KeyAccepted(key) && !fault.BorrowFails? && !FailsAt(fault, 0) && ctx !in s.registry
    // the registry and the set of keys never change, and no token is ever replaced
    ensures r.next.registry == s.registry && r.next.nextSerial == s.nextSerial && r.next.clock == s.clock
    ensures r.next.store.Keys == s.store.Keys
    ensures forall k | k in s.store :: r.next.store[k].value == s.store[k].value
    // only the caller's own record may get a new TTL
    ensures r.next.store != s.store ==>
              && KeyAccepted(key) && ctx in s.registry && !PxRefused(millis, s.clock)
              && !fault.BorrowFails? && !FailsAt(fault, 0)
              && LockKey(key.value) in s.store && s.store[LockKey(key.value)].value == s.registry[ctx]
              && r.next.store == s.store[LockKey(key.value) := Record(s.registry[ctx], millis)]
    ensures && KeyAccepted(key) && !fault.BorrowFails? && !FailsAt(fault, 0) && !FailsAt(fault, 1)
            && !PxRefused(millis, s.clock)
            && ctx in s.registry && LockKey(key.value) in s.store
            && s.store[LockKey(key.value)].value == s.registry[ctx]
            ==> r.next.store[LockKey(key.value)] == Record(s.registry[ctx], millis)
  {
    var p := DelayLockRead(s, ctx, key, millis, fault);
    match p.progress
    case Done(o) => Reply(p.next, o)
    case Pending(wb) =>
      var w := DelayLockWrite(p.next, wb.lockKey, wb.token, wb.millis, fault);
      Reply(w.next, w.progress.outcome)
  }

  // ---------------------------------------------------------------------
  // unLock: GET, compare with the thread's token, DEL
  // ---------------------------------------------------------------------

  /** First round trip of `unLock`. A thread with no token sends nothing. */
  function UnLockRead(s: State, ctx: Ctx, key: Nullable<string>, fault: Fault): (r: Step<bool>)
    ensures r.next == s
    ensures !KeyAccepted(key) ==> r.progress == Done(Raised(IllegalArgument(KeyMessage)))
    ensures KeyAccepted(key) && r.progress.Done? ==> r.progress.outcome == Value(false)
    ensures r.progress.Pending? <==>
              && KeyAccepted(key) && !fault.BorrowFails? && !FailsAt(fault, 0)
              && ctx in s.registry && Get(s.store, LockKey(key.value)) == NonNull(s.registry[ctx])
    ensures r.progress.Pending? ==> r.progress.resume == Delete(LockKey(key.value))
  {
    match NotEmptyString(key, KeyMessage)
    case Raised(e) => Step(s, Done(Raised(e)))
    case Value(_) =>
      var lockKey := LockKey(key.value);
      if fault.BorrowFails? || ctx !in s.registry || FailsAt(fault, 0) then Step(s, Done(Value(false)))
      else if Get(s.store, lockKey) == NonNull(s.registry[ctx]) then Step(s, Pending(Delete(lockKey)))
      else Step(s, Done(Value(false)))
  }

  /** Second round trip of `unLock`: a plain `DEL`, which removes whatever
      the key holds by now. The result is whether a record went; the
      thread's slot is cleared whenever the `DEL` returned. */
  function UnLockDelete(s: State, ctx: Ctx, lockKey: string, fault: Fault): (r: Step<bool>)
    ensures r.progress == Done(Value(true)) <==> !FailsAt(fault, 1) && lockKey in s.store
    ensures r.progress.Done? && r.progress.outcome.Value?
    ensures r.next.nextSerial == s.nextSerial
    ensures !FailsAt(fault, 1) ==> r.next.store == s.store - {lockKey} && r.next.registry == s.registry - {ctx}
    ensures FailsAt(fault, 1) ==>
              (r.next.store == s.store || r.next.store == s.store - {lockKey}) && r.next.registry == s.registry
    ensures Wf(s) ==> Wf(r.next)
  {
    var (rest, removed) := Del(s.store, lockKey);
    if FailsAt(fault, 1) then
      Step(s.(store := if fault.reachedServer then rest else s.store), Done(Value(false)))
    else
      Step(s.(store := rest, registry := s.registry - {ctx}), Done(Value(removed > 0)))
  }

  /** `unLock` with both round trips back to back. */
  function UnLock(s: State, ctx: Ctx, key: Nullable<string>, fault: Fault): (r: Reply<bool>)
    ensures !KeyAccepted(key) ==> r == Reply(s, Raised(IllegalArgument(KeyMessage)))
    ensures KeyAccepted(key) ==> r.outcome.Value?
    ensures r.next.nextSerial == s.nextSerial && r.next.clock == s.clock
    ensures r.outcome == Value(true) <==>
              && KeyAccepted(key) && !fault.BorrowFails? && !FailsAt(fault, 0) && !FailsAt(fault, 1)
              && ctx in s.registry && LockKey(key.value) in s.store
              && s.store[LockKey(key.value)].value == s.registry[ctx]
    ensures r.outcome == Value(true) ==>
              r.next.store == s.store - {LockKey(key.value)} && r.next.registry == s.registry - {ctx}
    ensures r.outcome != Value(true) ==> r.next.registry == s.registry
    // a record goes only when it holds the token the caller remembers
    ensures r.next.store != s.store ==>
              && KeyAccepted(key) && ctx in s.registry && !fault.BorrowFails? && !FailsAt(fault, 0)
              && LockKey(key.value) in s.store && s.store[LockKey(key.value)].value == s.registry[ctx]
              && r.next.store == s.store - {LockKey(key.value)}
    // false leaves the store as it was, unless a lost DEL reply had reached it
    ensures r.next.store != s.store ==> r.outcome == Value(true) || (FailsAt(fault, 1) && fault.reachedServer)
    ensures Wf(s) ==> Wf(r.next)
  {
    var p := UnLockRead(s, ctx, key, fault);
    match p.progress
    case Done(o) => Reply(p.next, o)
    case Pending(del) =>
      var d := UnLockDelete(p.next, ctx, del.lockKey, fault);
      Reply(d.next, d.progress.outcome)
  }
}

=== FILE: java.dfy ===
/** The few Java language facts the lock depends on: 64-bit `long` values,
    references that may be `null`, the exceptions the lock lets escape, and
    integer division that truncates toward zero. */
module Java {

  const MinLong: int := -0x8000_0000_0000_0000
  const MaxLong: int := 0x7fff_ffff_ffff_ffff

  /** A Java `long`. */
  type Long = x: int | MinLong <= x <= MaxLong

  /** A Java reference of type T, which may be `null`. */
  datatype Nullable<+T> = Null | NonNull(value: T)

  /** The exceptions that can leave a lock operation. */
  datatype Exception =
    | IllegalArgument(message: string)
    | NullPointer

  /** How a Java call ends: it returns a value or it throws. A `void` method
      returns the unit value `()`. */
  datatype Outcome<+T> = Value(value: T) | Raised(error: Exception)

  /** Java's `a / b` on longs for a positive divisor: the quotient is rounded
      toward zero, unlike Dafny's Euclidean `/`. */
  function JavaDiv(a: int, b: int): (q: int)
    requires b > 0
    ensures 0 <= a ==> 0 <= q && q * b <= a < q * b + b
    ensures a < 0 ==> q <= 0 && q * b - b < a <= q * b
  {
    if a >= 0 then a / b else -((-a) / b)
  }

  /** Rounding toward zero keeps the order of dividends. */
  lemma JavaDivMonotone(a1: int, a2: int, b: int)
    requires b > 0
    requires a1 <= a2
    ensures JavaDiv(a1, b) <= JavaDiv(a2, b)
  {
    var q1, q2 := JavaDiv(a1, b), JavaDiv(a2, b);
    if a1 < 0 <= a2 {
      assert q1 <= 0 <= q2;
    } else {
      assert q1 * b < (q2 + 1) * b;
      ScaledLess(q1, q2 + 1, b);
    }
  }

  lemma ScaledLess(x: int, y: int, b: int)
    requires b > 0
    requires x * b < y * b
    ensures x < y
  {
  }
}

=== FILE: lock_keys.dfy ===
/** The lock's key namespace: every resource key is stored under a fixed
    prefix, which keeps lock records apart from other data in the store. */
module LockKeys {
  import opened Java

  const LockKeyPrefix: string := "vlightv:global:lock:"

  /** `getLockKey`: the prefix followed by the resource key. */
  function LockKey(key: string): (r: string)
    ensures |r| == |LockKeyPrefix| + |key|
    ensures r[..|LockKeyPrefix|] == LockKeyPrefix
    ensures r[|LockKeyPrefix|..] == key
  {
    LockKeyPrefix + key
  }

  /** The inverse of `LockKey`: the resource key a storage key belongs to, or
      `Null` for a storage key outside the lock namespace. */
  function ResourceKey(lockKey: string): (r: Nullable<string>)
    ensures r.NonNull? <==> |LockKeyPrefix| <= |lockKey| && lockKey[..|LockKeyPrefix|] == LockKeyPrefix
    ensures r.NonNull? ==> LockKey(r.value) == lockKey
  {
    if |LockKeyPrefix| <= |lockKey| && lockKey[..|LockKeyPrefix|] == LockKeyPrefix
    then NonNull(lockKey[|LockKeyPrefix|..])
    else Null
  }

  /** Every resource key is recovered from its storage key. */
  lemma LockKeyRoundTrip(key: string)
    ensures ResourceKey(LockKey(key)) == NonNull(key)
  {
  }

  /** Distinct resource keys never share a storage key. */
  lemma LockKeyInjective(a: string, b: string)
    ensures LockKey(a) == LockKey(b) <==> a == b
  {
  }
}

=== FILE: lock_store.dfy ===
/** The single-key commands the lock sends to the key-value store, each one
    atomic on the server. A record holds the stored value and the
    millisecond time-to-live it was written with; expiry itself is an
    environment step of the protocol, and the store's clock is consulted
    only when a `PX` is checked. */
module LockStore {
  import opened Java

  datatype Record<V> = Record(value: V, pxMillis: int)

  type Store<V> = map<string, Record<V>>

  /** `SET key value NX PX ms`: creates the record only when the key is
      absent; the flag says whether it did. */
  function SetIfAbsent<V>(s: Store<V>, key: string, rec: Record<V>): (Store<V>, bool)
  {
    if key in s then (s, false) else (s[key := rec], true)
  }

  /** `SET key value PX ms`: writes the record whether or not the key exists. */
  function Put<V>(s: Store<V>, key: string, rec: Record<V>): Store<V>
  {
    s[key := rec]
  }

  /** `GET key`. */
  function Get<V>(s: Store<V>, key: string): Nullable<V>
  {
    if key in s then NonNull(s[key].value) else Null
  }

  /** `EXISTS key`, for a single key: whether a record is there. */
  function Exists<V>(s: Store<V>, key: string): bool
  {
    key in s
  }

  /** `DEL key`: the store without the key, and how many records went. */
  function Del<V>(s: Store<V>, key: string): (Store<V>, nat)
  {
    (s - {key}, if key in s then 1 else 0)
  }
}

=== FILE: protocol.dfy ===
/** Many threads sharing one lock and one store. A run is a sequence of
    events: a thread calls an operation, a suspended thread runs its next
    phase, the store lets a record expire without telling anyone, or the
    store's clock advances.

    Under `WholeOps`, `delayLock` and `unLock` finish within their call;
    only the spin of `lock` spreads over several events. Under `RoundTrips`
    their GET and their SET/DEL are separate events, so other events can
    fall between them, as they can in `GlobalLockImpl`. */
module Protocol {
  import opened Java
  import opened LockKeys
  import opened LockStore
  import opened GlobalLock
  import TimeUnits

  /** The public operations: `lock`, `lockNoWait`, `delayLock`, `tryLock`
      and `unLock`. */
  datatype Op =
    | Acquire(key: Nullable<string>, duration: Duration)
    | AcquireNoWait(key: Nullable<string>, duration: Duration)
    | Extend(key: Nullable<string>, duration: Duration)
    | Probe(key: Nullable<string>)
    | Release(key: Nullable<string>)

  datatype Event =
    | Call(ctx: Ctx, op: Op, fault: Fault)
    | Continue(ctx: Ctx, fault: Fault)
    | Expire(lockKey: string)
    | Tick(millis: nat)

  datatype Granularity = WholeOps | RoundTrips

  /** The lock's configured lease time, its state, and the next phase of
      every thread that is inside a call. */
  datatype Sys = Sys(defaultMillis: Long, state: State, pending: map<Ctx, Resume>)

  /** A freshly initialised lock over an empty store whose clock reads
      `now`. */
  function Start(lockEx: Nullable<Long>, now: nat): Sys
  {
    Sys(Init(lockEx), State(map[], map[], 0, now), map[])
  }

  /** Records how far a phase got: a thread that is not done stays pending. */
  function Suspend<T>(sys: Sys, ctx: Ctx, st: Step<T>): Sys
  {
    Sys(sys.defaultMillis, st.next,
        if st.progress.Pending? then sys.pending[ctx := st.progress.resume] else sys.pending - {ctx})
  }

  /** The first phase of a call by a thread that is not inside one. A call
      whose lease time raises ends there and changes nothing. */
  function Begin(g: Granularity, sys: Sys, c: Ctx, op: Op, f: Fault): Sys
  {
    match op
    case Acquire(key, d) =>
      (match LeaseMillis(sys.defaultMillis, d)
       case Raised(_) => sys
       case Value(millis) => Suspend(sys, c, LockEnter(sys.state, c, key, millis, f)))
    case AcquireNoWait(key, d) =>
      (match LeaseMillis(sys.defaultMillis, d)
       case Raised(_) => sys
       case Value(millis) => sys.(state := LockNoWait(sys.state, c, key, millis, f).next))
    case Extend(key, d) =>
      (match LeaseMillis(sys.defaultMillis, d)
       case Raised(_) => sys
       case Value(millis) =>
         if g == WholeOps then sys.(state := DelayLock(sys.state, c, key, millis, f).next)
         else Suspend(sys, c, DelayLockRead(sys.state, c, key, millis, f)))
    case Probe(key) => sys
    case Release(key) =>
      if g == WholeOps then sys.(state := UnLock(sys.state, c, key, f).next)
      else Suspend(sys, c, UnLockRead(sys.state, c, key, f))
  }

  /** The next phase of a suspended call. */
  function Proceed(sys: Sys, c: Ctx, f: Fault): Sys
    requires c in sys.pending
  {
    match sys.pending[c]
    case Spin(k, t, m) => Suspend(sys, c, LockAttempt(sys.state, k, t, m, f))
    case WriteBack(k, t, m) => Suspend(sys, c, DelayLockWrite(sys.state, k, t, m, f))
    case Delete(k) => Suspend(sys, c, UnLockDelete(sys.state, c, k, f))
  }

  /** One event. A thread inside a call issues no new call, and a thread
      that is not inside one has nothing to continue: such events change
      nothing. */
  function Next(g: Granularity, sys: Sys, e: Event): Sys
  {
    match e
    case Expire(k) => sys.(state := sys.state.(store := sys.state.store - {k}))
    case Tick(ms) => sys.(state := sys.state.(clock := sys.state.clock + ms))
    case Call(c, op, f) => if c in sys.pending then sys else Begin(g, sys, c, op, f)
    case Continue(c, f) => if c !in sys.pending then sys else Proceed(sys, c, f)
  }

  function Run(g: Granularity, sys: Sys, trace: seq<Event>): Sys
    decreases |trace|
  {
    if trace == [] then sys else Run(g, Next(g, sys, trace[0]), trace[1..])
  }

  lemma RunPair(g: Granularity, sys: Sys, e1: Event, e2: Event)
    ensures Run(g, sys, [e1, e2]) == Next(g, Next(g, sys, e1), e2)
  {
    var s1 := Next(g, sys, e1);
    assert [e1, e2][0] == e1 && [e1, e2][1..] == [e2];
    assert Run(g, sys, [e1, e2]) == Run(g, s1, [e2]);
    assert [e2][0] == e2 && [e2][1..] == [];
    assert Run(g, s1, [e2]) == Run(g, Next(g, s1, e2), []);
  }

  predicate ActsFor(e: Event, c: Ctx)
  {
    (e.Call? || e.Continue?) && e.ctx == c
  }

  /** The token a suspended call carries was handed out already, by that
      thread. */
  ghost predicate ResumeOk(r: Resume, c: Ctx, nextSerial: nat)
  {
    match r
    case Spin(_, t, _) => t.serial < nextSerial && t.thread == c
    case WriteBack(_, t, _) => t.serial < nextSerial && t.thread == c
    case Delete(_) => true
  }

  ghost predicate Inv(g: Granularity, sys: Sys)
  {
    && Wf(sys.state)
    && (forall c | c in sys.pending :: ResumeOk(sys.pending[c], c, sys.state.nextSerial))
    && (g == WholeOps ==> forall c | c in sys.pending :: sys.pending[c].Spin?)
  }

  // ---------------------------------------------------------------------
  // the invariant
  // ---------------------------------------------------------------------

  lemma StartInv(g: Granularity, lockEx: Nullable<Long>, now: nat)
    ensures Inv(g, Start(lockEx, now))
  {
  }

  lemma BeginInv(g: Granularity, sys: Sys, c: Ctx, op: Op, f: Fault)
    requires Inv(g, sys) && c !in sys.pending
    ensures Inv(g, Begin(g, sys, c, op, f))
    ensures Begin(g, sys, c, op, f).state.nextSerial >= sys.state.nextSerial
  {
  }

  lemma ProceedInv(g: Granularity, sys: Sys, c: Ctx, f: Fault)
    requires Inv(g, sys) && c in sys.pending
    ensures Inv(g, Proceed(sys, c, f))
    ensures Proceed(sys, c, f).state.nextSerial == sys.state.nextSerial
  {
  }

  lemma NextInv(g: Granularity, sys: Sys, e: Event)
    requires Inv(g, sys)
    ensures Inv(g, Next(g, sys, e))
    ensures Next(g, sys, e).state.nextSerial >= sys.state.nextSerial
  {
    match e
    case Expire(k) =>
    case Tick(ms) =>
    case Call(c, op, f) =>
      if c !in sys.pending {
        BeginInv(g, sys, c, op, f);
      }
    case Continue(c, f) =>
      if c in sys.pending {
        ProceedInv(g, sys, c, f);
      }
  }

  /** Every reachable system keeps the invariant, and serials only grow. */
  lemma {:induction false} RunInv(g: Granularity, sys: Sys, trace: seq<Event>)
    requires Inv(g, sys)
    ensures Inv(g, Run(g, sys, trace))
    ensures Run(g, sys, trace).state.nextSerial >= sys.state.nextSerial
    decreases |trace|
  {
    if trace != [] {
      NextInv(g, sys, trace[0]);
      RunInv(g, Next(g, sys, trace[0]), trace[1..]);
    }
  }

  // ---------------------------------------------------------------------
  // safety of whole operations
  // ---------------------------------------------------------------------

  /** At most one thread remembers the token a record holds: a token names
      the thread that generated it, and a thread's slot holds only its own
      tokens. */
  lemma OneRememberingThread(g: Granularity, sys: Sys, k: string, c1: Ctx, c2: Ctx)
    requires Inv(g, sys)
    requires k in sys.state.store
    requires c1 in sys.state.registry && sys.state.registry[c1] == sys.state.store[k].value
    requires c2 in sys.state.registry && sys.state.registry[c2] == sys.state.store[k].value
    ensures c1 == c2
  {
  }

  /** A record never changes its token while it exists: `delayLock` only
      rewrites the token already there, and no acquisition overwrites. */
  lemma NoTokenSwap(sys: Sys, e: Event, k: string)
    requires Inv(WholeOps, sys)
    requires k in sys.state.store && k in Next(WholeOps, sys, e).state.store
    ensures Next(WholeOps, sys, e).state.store[k].value == sys.state.store[k].value
  {
  }

  /** A record disappears only by expiry or by a release from the thread
      that remembers its token. */
  lemma OnlyRememberingThreadReleases(sys: Sys, e: Event, k: string)
    requires Inv(WholeOps, sys)
    requires k in sys.state.store && k !in Next(WholeOps, sys, e).state.store
    ensures || e == Expire(k)
            || (&& e.Call? && e.op.Release? && e.op.key == NonNull(ResourceKey(k).value)
                && e.ctx in sys.state.registry && sys.state.registry[e.ctx] == sys.state.store[k].value)
  {
  }

  /** One event that is neither an expiry of k nor an action of the thread
      owning k's record leaves that record exactly as it was. */
  lemma LeaseUndisturbedStep(sys: Sys, e: Event, k: string)
    requires Inv(WholeOps, sys)
    requires k in sys.state.store
    requires !ActsFor(e, sys.state.store[k].value.thread) && e != Expire(k)
    ensures k in Next(WholeOps, sys, e).state.store
    ensures Next(WholeOps, sys, e).state.store[k] == sys.state.store[k]
  {
  }

  /** The same over any run. */
  lemma {:induction false} LeaseUndisturbed(sys: Sys, trace: seq<Event>, k: string)
    requires Inv(WholeOps, sys)
    requires k in sys.state.store
    requires forall i | 0 <= i < |trace| ::
               !ActsFor(trace[i], sys.state.store[k].value.thread) && trace[i] != Expire(k)
    ensures k in Run(WholeOps, sys, trace).state.store
    ensures Run(WholeOps, sys, trace).state.store[k] == sys.state.store[k]
    decreases |trace|
  {
    if trace != [] {
      LeaseUndisturbedStep(sys, trace[0], k);
      NextInv(WholeOps, sys, trace[0]);
      LeaseUndisturbed(Next(WholeOps, sys, trace[0]), trace[1..], k);
    }
  }

  /** After thread a's `lockNoWait` succeeds, every `lockNoWait` and
      `tryLock` on the same key fails, by any thread, until a acts again or
      the record expires. */
  lemma HeldKeyRefusesOthers(sys: Sys, a: Ctx, key: Nullable<string>, d: Duration, f: Fault,
                             trace: seq<Event>, b: Ctx, millis: Long, f2: Fault)
    requires Inv(WholeOps, sys) && a !in sys.pending
    requires LeaseMillis(sys.defaultMillis, d).Value?
    requires LockNoWait(sys.state, a, key, LeaseMillis(sys.defaultMillis, d).value, f).outcome == Value(true)
    requires forall i | 0 <= i < |trace| ::
               !ActsFor(trace[i], a) && trace[i] != Expire(LockKey(key.value))
    ensures var later := Run(WholeOps, Next(WholeOps, sys, Call(a, AcquireNoWait(key, d), f)), trace).state;
            && LockNoWait(later, b, key, millis, f2).outcome == Value(false)
            && TryLock(later, key, f2) == Value(false)
  {
    var held := Next(WholeOps, sys, Call(a, AcquireNoWait(key, d), f));
    var lk := LockKey(key.value);
    NextInv(WholeOps, sys, Call(a, AcquireNoWait(key, d), f));
    assert held.state.store[lk].value.thread == a;
    LeaseUndisturbed(held, trace, lk);
  }

  /** A token handed out once is never handed out again: every later
      acquisition, by any thread, gets a different token. */
  lemma TokensNeverReused(g: Granularity, sys: Sys, trace: seq<Event>, t: Token, c: Ctx)
    requires Inv(g, sys)
    requires (exists k :: k in sys.state.store && sys.state.store[k].value == t)
             || (exists c' :: c' in sys.state.registry && sys.state.registry[c'] == t)
    ensures NewToken(Run(g, sys, trace).state, c) != t
  {
    RunInv(g, sys, trace);
  }

  // ---------------------------------------------------------------------
  // the blocking lock
  // ---------------------------------------------------------------------

  /** A spinning `lock` changes nothing while the key is held, and gets the
      key on its next attempt once the record has expired. With a lease time
      the store refuses at its current clock, it returns on its next attempt
      without the key. */
  lemma SpinnerWaitsThenEnters(g: Granularity, sys: Sys, b: Ctx, f: Fault)
    requires b in sys.pending && sys.pending[b].Spin?
    requires !FailsAt(f, 0)
    ensures 0 < sys.pending[b].millis <= MaxLong - sys.state.clock && sys.pending[b].lockKey in sys.state.store ==>
              Next(g, sys, Continue(b, f)) == sys
    ensures var after := Run(g, sys, [Expire(sys.pending[b].lockKey), Continue(b, f)]);
            && b !in after.pending
            && (0 < sys.pending[b].millis <= MaxLong - sys.state.clock ==>
                  after.state.store == (sys.state.store - {sys.pending[b].lockKey})[sys.pending[b].lockKey :=
                    Record(sys.pending[b].token, sys.pending[b].millis)])
    ensures !(0 < sys.pending[b].millis <= MaxLong - sys.state.clock) ==>
              var next := Next(g, sys, Continue(b, f));
              b !in next.pending && next.state == sys.state
  {
    RunPair(g, sys, Expire(sys.pending[b].lockKey), Continue(b, f));
  }

  /** The lease time written by the overloads without a duration is the
      configured one, 3000 ms when nothing is configured; the others write
      their duration in milliseconds. A record is written exactly when that
      time is positive and its expiry instant fits in a `long`; a null unit
      changes nothing at all. */
  lemma LeaseTimeFollowsConfiguration(lockEx: Nullable<Long>, now: nat, a: Ctx, key: Nullable<string>, d: Duration)
    requires KeyAccepted(key)
    ensures d.For? && d.unit.Null? ==>
              Next(WholeOps, Start(lockEx, now), Call(a, AcquireNoWait(key, d), Healthy)) == Start(lockEx, now)
    ensures !(d.For? && d.unit.Null?) ==>
              var s := Next(WholeOps, Start(lockEx, now), Call(a, AcquireNoWait(key, d), Healthy)).state;
              var millis := match d
                            case DefaultTtl => (if lockEx.NonNull? then lockEx.value else 3000)
                            case For(time, unit) => TimeUnits.ToMillis(time, unit.value);
              && (LockKey(key.value) in s.store <==> 0 < millis && now + millis <= MaxLong)
              && (LockKey(key.value) in s.store ==> s.store[LockKey(key.value)].pxMillis == millis)
  {
  }

  /** An overload with a duration and a null unit raises before it checks
      the key or touches the store, so the whole system stays as it was. */
  lemma NullUnitChangesNothing(g: Granularity, sys: Sys, c: Ctx, op: Op, f: Fault)
    requires c !in sys.pending
    requires op.Acquire? || op.AcquireNoWait? || op.Extend?
    requires op.duration.For? && op.duration.unit.Null?
    ensures LeaseMillis(sys.defaultMillis, op.duration) == Raised(NullPointer)
    ensures Next(g, sys, Call(c, op, f)) == sys
  {
  }

  /** A lease shorter than a millisecond truncates to 0 ms, which the store
      refuses: `lockNoWait` on a free key then fails, clears the thread's
      slot and writes nothing. */
  lemma SubMillisecondLeaseFails(sys: Sys, c: Ctx, key: Nullable<string>, f: Fault)
    requires KeyAccepted(key)
    ensures var m := LeaseMillis(sys.defaultMillis, For(500, NonNull(TimeUnits.Microseconds)));
            && m == Value(0)
            && LockNoWait(sys.state, c, key, m.value, f).outcome == Value(false)
            && LockNoWait(sys.state, c, key, m.value, f).next.store == sys.state.store
            && c !in LockNoWait(sys.state, c, key, m.value, f).next.registry
  {
  }

  /** A coarse conversion that overflows saturates to `Long.MAX_VALUE`, an
      expiry the store cannot represent once its clock is past the epoch:
      `lockNoWait` then fails, clears the thread's slot and writes nothing. */
  lemma SaturatedLeaseFails(sys: Sys, c: Ctx, key: Nullable<string>, f: Fault)
    requires KeyAccepted(key) && sys.state.clock > 0
    ensures var m := LeaseMillis(sys.defaultMillis, For(MaxLong, NonNull(TimeUnits.Days)));
            && m == Value(MaxLong)
            && LockNoWait(sys.state, c, key, m.value, f).outcome == Value(false)
            && LockNoWait(sys.state, c, key, m.value, f).next.store == sys.state.store
            && c !in LockNoWait(sys.state, c, key, m.value, f).next.registry
  {
  }

  // ---------------------------------------------------------------------
  // split round trips
  // ---------------------------------------------------------------------

  /** With nothing in between, the two round trips of `delayLock` or
      `unLock` do what the whole call does. */
  lemma RoundTripsBackToBack(sys: Sys, c: Ctx, op: Op, f: Fault)
    requires op.Extend? || op.Release?
    requires c !in sys.pending
    ensures Run(RoundTrips, sys, [Call(c, op, f), Continue(c, f)]) == Next(WholeOps, sys, Call(c, op, f))
  {
    RunPair(RoundTrips, sys, Call(c, op, f), Continue(c, f));
    if op.Extend? {
      ExtendBackToBack(sys, c, op.key, op.duration, f);
    } else {
      ReleaseBackToBack(sys, c, op.key, f);
    }
  }

  lemma ExtendBackToBack(sys: Sys, c: Ctx, key: Nullable<string>, d: Duration, f: Fault)
    requires c !in sys.pending
    ensures var s1 := Next(RoundTrips, sys, Call(c, Extend(key, d), f));
            Next(RoundTrips, s1, Continue(c, f)) == Next(WholeOps, sys, Call(c, Extend(key, d), f))
  {
    match LeaseMillis(sys.defaultMillis, d)
    case Raised(_) =>
    case Value(millis) =>
      var p := DelayLockRead(sys.state, c, key, millis, f);
      assert Next(RoundTrips, sys, Call(c, Extend(key, d), f)) == Suspend(sys, c, p);
  }

  lemma ReleaseBackToBack(sys: Sys, c: Ctx, key: Nullable<string>, f: Fault)
    requires c !in sys.pending
    ensures var s1 := Next(RoundTrips, sys, Call(c, Release(key), f));
            Next(RoundTrips, s1, Continue(c, f)) == Next(WholeOps, sys, Call(c, Release(key), f))
  {
  }

  /** A `lockNoWait` on a free key, from a thread not inside a call, with a
      configured lease time the store accepts at its current clock. */
  lemma AcquireFreeKey(g: Granularity, sys: Sys, c: Ctx, key: Nullable<string>)
    requires c !in sys.pending && KeyAccepted(key)
    requires 0 < sys.defaultMillis && sys.state.clock + sys.defaultMillis <= MaxLong
    requires LockKey(key.value) !in sys.state.store
    ensures var t := NewToken(sys.state, c);
            Next(g, sys, Call(c, AcquireNoWait(key, DefaultTtl), Healthy))
              == sys.(state := sys.state.(store := sys.state.store[LockKey(key.value) := Record(t, sys.defaultMillis)],
                                          registry := sys.state.registry[c := t],
                                          nextSerial := sys.state.nextSerial + 1))
  {
  }

  /** The GET phase of a healthy `delayLock` or `unLock` by the thread whose
      token the record holds: nothing changes but the thread's next phase. */
  lemma OwnerReadsOwnRecord(sys: Sys, c: Ctx, op: Op)
    requires op == Extend(op.key, DefaultTtl) || op.Release?
    requires c !in sys.pending && KeyAccepted(op.key) && c in sys.state.registry
    requires LockKey(op.key.value) in sys.state.store
    requires sys.state.store[LockKey(op.key.value)].value == sys.state.registry[c]
    ensures Next(RoundTrips, sys, Call(c, op, Healthy))
              == sys.(pending := sys.pending[c := if op.Release? then Delete(LockKey(op.key.value))
                                                  else WriteBack(LockKey(op.key.value), sys.state.registry[c],
                                                                 sys.defaultMillis)])
  {
  }

  /** The SET phase of a healthy `delayLock` with an accepted lease time
      writes the remembered token, whatever the key holds by now. */
  lemma WriteBackLands(sys: Sys, c: Ctx)
    requires c in sys.pending && sys.pending[c].WriteBack?
    requires !PxRefused(sys.pending[c].millis, sys.state.clock)
    ensures var wb := sys.pending[c];
            Next(RoundTrips, sys, Continue(c, Healthy))
              == sys.(state := sys.state.(store := sys.state.store[wb.lockKey := Record(wb.token, wb.millis)]),
                      pending := sys.pending - {c})
  {
  }

  /** A store clock reading in October 2025. */
  const Now: nat := 1_760_000_000_000

  const ThreadA: Ctx := 1
  const ThreadB: Ctx := 2
  const Job: Nullable<string> := NonNull("job-42")

  /** Under round trips, `unLock` can delete another thread's lease: A reads
      its own token, the record expires, B acquires the key, and A's DEL then
      removes B's record while B still remembers its token. */
  lemma UnLockRaceRemovesNewHolder()
    ensures var lk := LockKey(Job.value);
            var s1 := Next(RoundTrips, Start(Null, Now), Call(ThreadA, AcquireNoWait(Job, DefaultTtl), Healthy));
            var s2 := Next(RoundTrips, s1, Call(ThreadA, Release(Job), Healthy));
            var s3 := Next(RoundTrips, s2, Expire(lk));
            var s4 := Next(RoundTrips, s3, Call(ThreadB, AcquireNoWait(Job, DefaultTtl), Healthy));
            var s5 := Next(RoundTrips, s4, Continue(ThreadA, Healthy));
            && lk in s4.state.store && s4.state.store[lk].value.thread == ThreadB
            && ThreadB in s5.state.registry && s5.state.registry[ThreadB] == s4.state.store[lk].value
            && lk !in s5.state.store
  {
    var lk := LockKey(Job.value);
    var s0 := Start(Null, Now);
    var s1 := Next(RoundTrips, s0, Call(ThreadA, AcquireNoWait(Job, DefaultTtl), Healthy));
    AcquireFreeKey(RoundTrips, s0, ThreadA, Job);
    OwnerReadsOwnRecord(s1, ThreadA, Release(Job));
    var s2 := Next(RoundTrips, s1, Call(ThreadA, Release(Job), Healthy));
    var s3 := Next(RoundTrips, s2, Expire(lk));
    assert s3.state.store == map[];
    AcquireFreeKey(RoundTrips, s3, ThreadB, Job);
  }

  /** Under round trips, `delayLock` can overwrite another thread's lease:
      A reads its own token, the record expires, B acquires the key, and A's
      SET puts A's token back over B's. The record changes its token while it
      exists, and both threads remember a token for the key. */
  lemma DelayLockRaceOverwritesNewHolder()
    ensures var lk := LockKey(Job.value);
            var s1 := Next(RoundTrips, Start(Null, Now), Call(ThreadA, AcquireNoWait(Job, DefaultTtl), Healthy));
            var s2 := Next(RoundTrips, s1, Call(ThreadA, Extend(Job, DefaultTtl), Healthy));
            var s3 := Next(RoundTrips, s2, Expire(lk));
            var s4 := Next(RoundTrips, s3, Call(ThreadB, AcquireNoWait(Job, DefaultTtl), Healthy));
            var s5 := Next(RoundTrips, s4, Continue(ThreadA, Healthy));
            && lk in s4.state.store && s4.state.store[lk].value.thread == ThreadB
            && lk in s5.state.store && s5.state.store[lk].value.thread == ThreadA
            && ThreadA in s5.state.registry && s5.state.registry[ThreadA] == s5.state.store[lk].value
            && ThreadB in s5.state.registry && s5.state.registry[ThreadB] == s4.state.store[lk].value
  {
    var lk := LockKey(Job.value);
    var tA := Token(0, ThreadA);
    var s0 := Start(Null, Now);
    var s1 := Next(RoundTrips, s0, Call(ThreadA, AcquireNoWait(Job, DefaultTtl), Healthy));
    AcquireFreeKey(RoundTrips, s0, ThreadA, Job);
    OwnerReadsOwnRecord(s1, ThreadA, Extend(Job, DefaultTtl));
    var s2 := Next(RoundTrips, s1, Call(ThreadA, Extend(Job, DefaultTtl), Healthy));
    assert s2.pending == map[ThreadA := WriteBack(lk, tA, 3000)];
    var s3 := Next(RoundTrips, s2, Expire(lk));
    assert s3.state.store == map[];
    var s4 := Next(RoundTrips, s3, Call(ThreadB, AcquireNoWait(Job, DefaultTtl), Healthy));
    AcquireFreeKey(RoundTrips, s3, ThreadB, Job);
    WriteBackLands(s4, ThreadA);
  }

  /** A locks "job-42" and gets it; B's `lockNoWait` fails; A's `unLock`
      returns true and removes the record; B's `lockNoWait` then succeeds
      with a token different from A's. */
  lemma JobScenario()
    ensures var aHolds := Run(WholeOps, Start(Null, Now),
                            [Call(ThreadA, Acquire(Job, DefaultTtl), Healthy), Continue(ThreadA, Healthy)]);
            ThreadA !in aHolds.pending && LockKey(Job.value) in aHolds.state.store
    ensures var lk := LockKey(Job.value);
            var aHolds := Run(WholeOps, Start(Null, Now),
                            [Call(ThreadA, Acquire(Job, DefaultTtl), Healthy), Continue(ThreadA, Healthy)]);
            var t1 := aHolds.state.store[lk].value;
            var bTries := LockNoWait(aHolds.state, ThreadB, Job, 3000, Healthy);
            var aReleases := UnLock(bTries.next, ThreadA, Job, Healthy);
            var bGets := LockNoWait(aReleases.next, ThreadB, Job, 3000, Healthy);
            && t1.thread == ThreadA
            && bTries.outcome == Value(false)
            && aReleases.outcome == Value(true) && lk !in aReleases.next.store
            && bGets.outcome == Value(true) && lk in bGets.next.store && bGets.next.store[lk].value != t1
  {
    var s0 := Start(Null, Now);
    RunPair(WholeOps, s0, Call(ThreadA, Acquire(Job, DefaultTtl), Healthy), Continue(ThreadA, Healthy));
  }
}

=== FILE: time_units.dfy ===
/** `java.util.concurrent.TimeUnit.toMillis`, the only thing the
    duration-taking overloads of the lock do with their arguments. Finer
    units divide, rounding toward zero; coarser units multiply, and a product
    that would overflow a `long` becomes `Long.MAX_VALUE` or `Long.MIN_VALUE`
    instead of wrapping around. */
module TimeUnits {
  import opened Java

  datatype TimeUnit = Nanoseconds | Microseconds | Milliseconds | Seconds | Minutes | Hours | Days

  /** Milliseconds in one unit, for the units at least as coarse as a
      millisecond. */
  function MillisPer(u: TimeUnit): (f: nat)
    requires u !in {Nanoseconds, Microseconds}
    ensures f >= 1
  {
    match u
    case Milliseconds => 1
    case Seconds => 1000
    case Minutes => 60 * 1000
    case Hours => 60 * 60 * 1000
    case Days => 24 * 60 * 60 * 1000
  }

  /** Units in one millisecond, for the units finer than a millisecond. */
  function PerMilli(u: TimeUnit): (f: nat)
    requires u in {Nanoseconds, Microseconds}
    ensures f > 1
  {
    if u == Nanoseconds then 1000 * 1000 else 1000
  }

  /** The long nearest to x: x itself when it fits. */
  function Saturate(x: int): Long
  {
    if x > MaxLong then MaxLong else if x < MinLong then MinLong else x
  }

  function ToMillis(d: Long, u: TimeUnit): (r: Long)
    // finer units: the whole number of milliseconds, the fraction dropped toward zero
    ensures u in {Nanoseconds, Microseconds} && d >= 0 ==>
              0 <= r && r * PerMilli(u) <= d < r * PerMilli(u) + PerMilli(u)
    ensures u in {Nanoseconds, Microseconds} && d < 0 ==>
              r <= 0 && r * PerMilli(u) - PerMilli(u) < d <= r * PerMilli(u)
    // coarser units: the exact product when it fits in a long, else the bound of d's sign
    ensures u !in {Nanoseconds, Microseconds} ==> r == Saturate(d * MillisPer(u))
  {
    if u in {Nanoseconds, Microseconds} then JavaDiv(d, PerMilli(u))
    else Saturate(d * MillisPer(u))
  }

  /** A longer duration never converts to fewer milliseconds. */
  lemma ToMillisMonotone(d1: Long, d2: Long, u: TimeUnit)
    requires d1 <= d2
    ensures ToMillis(d1, u) <= ToMillis(d2, u)
  {
    if u in {Nanoseconds, Microseconds} {
      JavaDivMonotone(d1, d2, PerMilli(u));
    }
  }

  /** Converting a whole number of coarse units and dividing back gives the
      original count, as long as no saturation happened. */
  lemma ToMillisRoundTrip(d: Long, u: TimeUnit)
    requires u !in {Nanoseconds, Microseconds}
    requires MinLong <= d * MillisPer(u) <= MaxLong
    ensures ToMillis(d, u) % MillisPer(u) == 0
    ensures ToMillis(d, u) / MillisPer(u) == d
  {
    ExactQuotient(d, MillisPer(u));
  }

  /** A multiple of f divides by f exactly. */
  lemma ExactQuotient(d: int, f: int)
    requires f > 0
    ensures (d * f) % f == 0 && (d * f) / f == d
  {
    var q, m := (d * f) / f, (d * f) % f;
    assert (d - q) * f == m;
    ScaledLess(d - q, 1, f);
    ScaledLess(-1, d - q, f);
  }
}
